=== FILE: README.md ===
# Employee record table: search and upsert

This project models the one piece of logic in a small employee-data form
application: a table of employee records keyed by employee id. It supports
search by id, saving a record (update or insert), and filling the edit form
from a search hit. The application exists in two variants:

- a **spreadsheet** variant (`clad_3_working.py`), which reads and rewrites a worksheet;
- a **database** variant (`clad_4_db.py`), which keeps a SQLite table without a primary key.

A record has nineteen columns: the employee id, eight identity text fields
(career band, five business-function levels, department, work location) and
`Skill 1` to `Skill 10`. A cell is missing (`Null`), an integer (`Int`) or a
string (`Text`). A row is a `seq<Value>` of width 19, with the id in column 0.
A table is a `seq` of rows. Persistence is a table value that is passed in
and returned.

Modules:

- `Numerals`: decimal printing (`str`) and parsing (`int`, `to_numeric`) of integers.
- `Schema`: the column layout and column kinds of both variants.
- `Records`: the shared table logic. It defines key matching, where a missing key never matches. It also defines the first matching row, selection by id, the unique-id invariant, and search.
- `Spreadsheet`: the spreadsheet variant. Load normalises the id column. Save coerces the form with Python truthiness, then replaces the first matching row or appends. Edit turns missing numbers into 0 and missing text into "".
- `Database`: the database variant. SQLite column affinity coerces what is stored and compared. A save overwrites every row with the id or inserts one row. Edit copies cells verbatim.
- `Agreement`: how the two upserts relate, plus the Sales/Marketing walk-through.

Both variants search with the same rule (`clad_3_working.py:139-150` and
`clad_4_db.py:154-165` are identical apart from the id column's name), so `Records.Search` serves both.
Search rejects only the id 0 (`clad_3_working.py:140`, `clad_4_db.py:155`).
The search widget has `min_value=0`, so negative ids cannot be entered; the
model looks a negative query up like any other id.

Neither variant enforces one row per id: a worksheet may already hold
duplicates, and the SQLite table has no key. Saves never create a duplicate
(`UpsertKeepsIdsUnique` in both variants), but the spreadsheet can gain one
when it is reloaded. A save stores the id 0 as a blank cell, and loading
reads every blank id as 0, so two such saves followed by a reload give two
rows with id 0 (`Spreadsheet.ReloadBlankIdsCollide`). The model therefore
states its search results under `UniqueId(t, id)`: at most one row carries
the one id searched for. This condition ignores duplicates of any other id,
0 included, and every save keeps it (`UpsertKeepsIdUnique`). Under it the two
upserts coincide (`Agreement.UpsertsCoincide`). With an id stored twice they
differ (`Agreement.UpsertsDivergeOnDuplicates`).

In the database variant every form field, the id included, is drawn with a
text box: the form loop tests for the type name `'number'`, but the declared
types are `'INTEGER'` and `'TEXT'` (`clad_4_db.py:12-23`, `189`). A save
therefore receives the id as a string such as `"101"`. The id column is
created as INTEGER, so SQLite's type affinity turns decimal text into an
integer both when it stores the value and when it compares it in
`WHERE EmployeeID = ?`. The model applies the same coercion
(`Database.IntegerAffinity`, `Database.Store`), so saving `"101"` over a
stored 101 updates it (`Database.TextIdUpdates`). An id typed as
non-numeric text is stored as text, and no search by number finds it
(`Database.NonNumericIdUnsearchable`).

## Model

| member | source | states |
|---|---|---|
| Numerals.ParseIntRoundTrip | clad_3_working.py:160 | Parsing the decimal text of any integer gives back that integer, so `int(str(i)) == i` |
| Numerals.NatToString | clad_3_working.py:160 | `str` of a non-negative integer is a non-empty run of digits with no leading zero |
| Numerals.IntToString | clad_3_working.py:160 | `str` of an integer is a minus sign exactly for a negative number, followed by a non-empty run of digits with no leading zero (a lone `0` aside). `ParseIntRoundTrip` reads it back |
| Numerals.ParseInt | clad_3_working.py:194 | `int` of a string succeeds exactly on one or more decimal digits, optionally after a single `+` or `-`. The digits give their decimal value, leading zeros included. A leading `+` keeps that value, and a leading `-` negates it |
| Schema.ColumnLayout | clad_4_db.py:11-26 | Both layouts have 19 columns: the id first and `Skill 1`..`Skill 10` last, numbered from 1. The id is the only INTEGER column |
| Records.FirstIndex | clad_3_working.py:197 | The position chosen for an update holds the id, and no earlier row holds it |
| Records.Filter | clad_3_working.py:143 | The selection holds exactly the rows carrying the id. It is empty exactly when no row carries the id |
| Records.FilterAppend | clad_3_working.py:143 | Selection distributes over concatenation, so hits keep table order |
| Records.FilterFromFirst | clad_3_working.py:143 | The first hit of a selection is the first row that carries the id |
| Records.FilterUnique | clad_3_working.py:143-146 | When at most one row carries the id, a search finds exactly that row |
| Records.Search | clad_3_working.py:139-150 | Id 0 is rejected whatever the table holds. Otherwise the result is "not found" exactly when no row carries the id, and else the matching rows in order |
| Spreadsheet.Load | clad_3_working.py:90-109 | A missing or unreadable file gives an empty table. Otherwise there is one row per worksheet row, and missing columns read as empty. The id is always an integer: the number read, or 0 for a missing or non-numeric cell |
| Spreadsheet.Coerce | clad_3_working.py:191-194 | A falsy id (missing, 0, "") is stored as missing. A non-zero integer id is kept, and a numeric-text id is stored as the integer it reads as. Text fields pass through unchanged. The only failure is an id held as non-numeric text |
| Spreadsheet.Upsert | clad_3_working.py:196-202 | If the id is present, only the first row carrying it is replaced, and the count and all other rows stay the same. Otherwise the record is appended after the existing rows. The outcome reports which of the two happened |
| Spreadsheet.Save | clad_3_working.py:190-204 | A save fails exactly when coercion fails, and then nothing changes. Otherwise it reports an update exactly when the coerced id is already stored |
| Spreadsheet.FillForm | clad_3_working.py:157-162 | Edit values: the id becomes an integer and every other field a string. Present text is kept, an integer in a text column becomes its decimal text, a numeric-text id becomes its integer, a missing id becomes 0 and missing text "". Conversion fails exactly when the id is non-numeric text |
| Spreadsheet.Edit | clad_3_working.py:153-166 | An empty stored result gives "no data". Otherwise the form is filled from the first hit, or the run aborts when that row cannot be converted |
| Spreadsheet.UpsertKeepsIdsUnique | clad_3_working.py:196-202 | If ids are unique before a save, they are unique after it |
| Spreadsheet.UpsertKeepsIdUnique | clad_3_working.py:196-202 | If at most one row carries an id before a save, at most one carries it after, whatever other ids are duplicated |
| Spreadsheet.ReloadBlankIdsCollide | clad_3_working.py:103 | Two worksheet rows without an id both load with id 0, so a reloaded table can have a duplicate id |
| Spreadsheet.UpsertThenSearch | clad_3_working.py:140-146 | After saving a record with a non-zero id, a search for it succeeds and its first hit is that record. If at most one row carried the id before, the record is the only hit |
| Spreadsheet.CoerceThenFill | clad_3_working.py:191-194 | Saving a form and filling the form from the stored record gives back the same form |
| Spreadsheet.FillThenCoerce | clad_3_working.py:157-162 | Filling the form from a canonical row and saving it reproduces the row exactly |
| Spreadsheet.SaveSearchEdit | clad_3_working.py:139-206 | Saving a form with a non-zero id, searching for that id and pressing Edit gives back the saved form |
| Spreadsheet.EditThenSaveUpdates | clad_3_working.py:154-199 | Saving an edited search hit straight back always updates in place and never inserts. The row count is unchanged |
| Spreadsheet.SaveAllKeepsKeysTyped | clad_3_working.py:192-194 | If every stored id is an integer or missing, as `Load` guarantees, that still holds after any sequence of saves. So Edit never fails on a stored row |
| Database.UpdateWhere | clad_4_db.py:117-119 | The UPDATE keeps the row count. Every row carrying the id takes all of the record's values, and every other row is left alone |
| Database.IntegerAffinity | clad_4_db.py:12 | The INTEGER id column keeps integers and missing values, stores text that reads as an integer as that integer, and keeps any other text as it is |
| Database.Store | clad_4_db.py:11-23 | A stored row has the id under INTEGER affinity and every other cell under TEXT affinity, where a number becomes its decimal text |
| Database.StoreIsStored | clad_4_db.py:119-126 | Storing is idempotent: whatever a save writes is already in stored form |
| Database.AffinityReadsDecimal | clad_4_db.py:115 | The decimal text of any integer is stored and compared as that integer |
| Database.Upsert | clad_4_db.py:108-129 | The id is compared under INTEGER affinity. A present id that is already stored overwrites every row carrying it with the stored record, and the count is unchanged. A missing or new id inserts exactly the stored record as one new row. Rows with other ids are never modified |
| Database.TextIdUpdates | clad_4_db.py:115-119 | Saving a record whose id is the text of `q`, as the form sends it, over a table holding `q` updates and keeps the row count |
| Database.NonNumericIdUnsearchable | clad_4_db.py:158 | A record saved with a non-numeric text id is never among the hits of a search by number |
| Database.TextAffinity | clad_4_db.py:13-23 | A TEXT column never stores an integer: an integer is stored as its decimal text, and text and missing values are kept |
| Database.Redraw | clad_4_db.py:187-198 | The form as its text boxes return it holds no integers: each integer becomes its decimal text, and other cells are unchanged |
| Database.StoreUndoesRedraw | clad_4_db.py:187-198 | A stored row shown in the form's text boxes and saved again is stored as the same row: an integer id survives the trip as its decimal text |
| Database.UpsertKeepsStored | clad_4_db.py:119-126 | If every row is in stored form before a save, every row is after it |
| Database.Edit | clad_4_db.py:170-181 | An empty stored result gives "no data". Otherwise the form copies every cell of the first hit, and missing cells stay missing |
| Database.UpsertKeepsIdsUnique | clad_4_db.py:115-126 | If ids are unique before a save, they are unique after it |
| Database.FilterAfterUpdate | clad_4_db.py:117-119 | After the UPDATE, every row carrying the id is the saved record |
| Database.UpsertKeepsIdUnique | clad_4_db.py:115-126 | If at most one row carries an id before a save, at most one carries it after |
| Database.UpsertThenSearch | clad_4_db.py:154-165 | Take a record whose id SQLite reads as a non-zero integer: the integer itself, or any text such as `"101"` or `"+0101"`. After saving it, a search for that integer succeeds and every hit is the stored record. If at most one row carried the id before, the record is the only hit |
| Database.EditThenSaveIsNoOp | clad_4_db.py:172-207 | When one row carries the id, saving an edited search hit straight back leaves the table unchanged and reports an update. This holds for the form as Edit fills it and as its text boxes return it |
| Agreement.UpsertsCoincide | clad_4_db.py:115-127 | When at most one row carries the saved id, the all-match upsert gives the same table and outcome as the spreadsheet's first-match upsert of the stored record |
| Agreement.UpsertsDivergeOnDuplicates | clad_4_db.py:117-119 | With an integer id stored twice, the spreadsheet rewrites only the first copy, while the database rewrites both, so the tables differ |
| Agreement.DepartmentForm | clad_3_working.py:172-183 | Builds a form in the shape the widgets produce: an integer id, the given department, and "" in every other field |
| Agreement.SalesThenMarketing | clad_3_working.py:190-206 | Start from an empty table. Saving 101/Sales inserts it; saving 101/Marketing then updates it. The table keeps one row, and searching for 101 finds the Marketing record |

## Left out

- Rendering, CSS, page layout, widgets, buttons and confirmation or warning messages are presentation only. The outcomes (`Rejected`, `NotFound`, `Updated`, `Inserted`, `NoData`, `Aborted`) stand for the messages.
- Streamlit session state (`form_data`, `search_result`) is ambient UI state. The form is an explicit `Row`, and the stored search result is the `hits` passed to `Edit`.
- The Clear button resets the form to missing values and touches no table.
- Worksheet and SQLite I/O (`read_excel`, `to_excel`, `os.path.exists`, connection, cursor, `CREATE TABLE`, commit) are external persistence. The backend is a table value. A write failure (`save_to_excel`, `save_to_database` raising) is not modelled: a save always persists.
- Database load (`load_data` in `clad_4_db.py`) returns the stored rows as they are. The model's database is that table value itself. A query error, which yields an empty table, is not modelled separately.
- Database.Upsert: inserted rows are appended. SQL gives no order for `SELECT *` without `ORDER BY`, so insertion (rowid) order is assumed.
- Database.IntegerAffinity: reads integers with the `Numerals.ParseInt` syntax only. SQLite also converts text with surrounding spaces and real literals such as `'101.0'`; those are kept as text here.
- Database.Redraw: a missing value stays missing when the form is redrawn; the text box's rendering of a missing value is not modelled.
- Spreadsheet.Load: columns beyond the nineteen declared ones are dropped. The application would keep them and write them back.
- Numerals.ParseInt: accepts only an optional sign and decimal digits. Python's `int` also accepts surrounding whitespace and `_` separators. `to_numeric` also accepts decimals and exponents, which `astype(int)` then truncates.
- Integer width is not modelled: ids are unbounded integers. The spreadsheet's `astype(int)` (`clad_3_working.py:103`) produces 64-bit integers. SQLite stores integer text outside the signed 64-bit range as REAL, so such an id would no longer equal the integer searched for (`clad_4_db.py:12`, `115`). Ids outside the signed 64-bit range are therefore not described faithfully.
- pandas dtype effects are not modelled. For example, an integer column holding a missing value turns into floats.
- Spreadsheet.SaveSearchEdit, Spreadsheet.UpsertThenSearch: hold for the table written to `data.xlsx`, not for the frame the next run searches. The cache on `load_data` (`clad_3_working.py:89`, `allow_output_mutation=True`) hands every later run the same frame object. An update mutates that frame in place (line 198), so the next run sees it. An insert builds a new frame with `pd.concat` (line 201), which never reaches the cache. In the running application a newly inserted employee is therefore not found by the next run's search, and the next save rewrites the file from the stale frame, dropping that employee. The cache is not modelled.
- Agreement.SalesThenMarketing: holds for table values, not for one server session of the running application. Suppose the session starts with no file. Then `load_data` caches the empty frame (`clad_3_working.py:105`, `89`). The Sales save builds a new frame with `pd.concat` (line 201), which never reaches the cache. The next run's `df` is therefore the cached empty frame, so `not df.empty` is false (line 196), and the Marketing save is reported as an insert, not an update. A search for 101 on the following run finds nothing.
- `check_same_thread=False` is a concurrency setting and is not modelled.

=== FILE: agreement.dfy ===
/**
  How the two variants' saves relate. They differ only when an id is stored
  twice: the spreadsheet replaces the first such row, the database all of
  them. While ids are unique the two give the same table.
 */
module Agreement {
  import opened Schema
  import opened Records
  import Spreadsheet
  import Database

  /**
    When at most one row carries the saved id, first-match and all-match
    upserts of the same stored record give the same table and outcome.
   */
  lemma UpsertsCoincide(t: Table, rec: Row)
    requires UniqueId(t, Key(Database.Store(rec)))
    ensures Spreadsheet.Upsert(t, Database.Store(rec)) == Database.Upsert(t, rec)
  {
  }

  /**
    Without unique ids the variants part ways: saving over an id stored twice
    rewrites only the first copy in the spreadsheet but both in the database.
   */
  lemma UpsertsDivergeOnDuplicates(first: Row, second: Row, rec: Row)
    requires Key(first).Int? && Key(second) == Key(first) && Key(rec) == Key(first)
    requires second != Database.Store(rec)
    ensures Spreadsheet.Upsert([first, second], rec).table == [rec, second]
    ensures Database.Upsert([first, second], rec).table == [Database.Store(rec), Database.Store(rec)]
    ensures Spreadsheet.Upsert([first, second], rec).table != Database.Upsert([first, second], rec).table
  {
    assert Matches([first, second][0], Key(rec));
  }

  /** A form holding an id and one department name, every other field empty. */
  function DepartmentForm(id: int, department: string): (form: Row)
    ensures Spreadsheet.FormShaped(form)
    ensures Key(form) == Int(id) && form[DepartmentColumn] == Text(department)
    ensures forall c :: 0 <= c < Width && c != IdColumn && c != DepartmentColumn ==> form[c] == Text("")
  {
    seq(Width, (c: int) requires 0 <= c < Width =>
      if c == IdColumn then Int(id) else if c == DepartmentColumn then Text(department) else Text(""))
  }

  /**
    Saving employee 101 in Sales into an empty spreadsheet inserts it; saving
    101 again in Marketing updates it in place, the table still holds one
    row, and a search for 101 finds the Marketing record.
   */
  lemma SalesThenMarketing()
    ensures FirstSave().outcome == Inserted
    ensures Search(FirstSave().table, 101).Found?
    ensures SecondSave().outcome == Updated
    ensures |SecondSave().table| == 1
    ensures Search(SecondSave().table, 101).Found?
    ensures Search(SecondSave().table, 101).hits[0][DepartmentColumn] == Text("Marketing")
  {
  }

  /** The walk-through's first save; it succeeds, the form's id being an integer. */
  function FirstSave(): Saved {
    Spreadsheet.Save([], DepartmentForm(101, "Sales")).value
  }

  /** The walk-through's second save, over the table the first one wrote. */
  function SecondSave(): Saved {
    Spreadsheet.Save(FirstSave().table, DepartmentForm(101, "Marketing")).value
  }
}

=== FILE: database.dfy ===
/**
  The SQLite-backed variant. The table has no primary key, so the save's
  `UPDATE ... WHERE EmployeeID = ?` rewrites EVERY row carrying the id, while
  a missing id or an id not yet stored inserts one row. Form values reach the
  database without coercion; the column types do the coercing (SQLite type
  affinity): the INTEGER id column turns decimal text into an integer, both
  when storing and when comparing, and the TEXT columns turn numbers into
  text. Every field of the form, the id included, is drawn with a text box,
  so a saved id arrives as text. Edit copies the first hit verbatim. Rows are
  assumed to come back in insertion order, so an insert is an append.
 */
module Database {
  import opened Numerals
  import opened Schema
  import opened Records

  /**
    INTEGER affinity: text that reads as an integer is stored (and compared)
    as that integer; anything else is kept as it is.
   */
  function IntegerAffinity(v: Value): (a: Value)
    ensures a.Null? <==> v.Null?
    ensures v.Int? ==> a == v
    ensures a.Text? <==> v.Text? && ParseInt(v.s).None?
    ensures a.Text? ==> a == v
    ensures v.Text? && a.Int? ==> ParseInt(v.s) == Some(a.n)
  {
    match v
    case Text(s) => (match ParseInt(s) case Some(n) => Int(n) case None => v)
    case _ => v
  }

  /** TEXT affinity: a number is stored as its decimal text. */
  function TextAffinity(v: Value): (a: Value)
    ensures !a.Int?
    ensures !v.Int? ==> a == v
    ensures v.Int? ==> a == Text(IntToString(v.n))
  {
    match v
    case Int(n) => Text(IntToString(n))
    case _ => v
  }

  /** The row SQLite stores for a record: each cell under its column's affinity. */
  function Store(rec: Row): (r: Row)
    ensures Key(r) == IntegerAffinity(Key(rec))
    ensures forall c :: 0 <= c < Width && c != IdColumn ==> r[c] == TextAffinity(rec[c])
  {
    seq(Width, (c: int) requires 0 <= c < Width =>
      if KindOf(c) == Numeric then IntegerAffinity(rec[c]) else TextAffinity(rec[c]))
  }

  /** A row as SQLite holds it: storing it again changes nothing. */
  predicate Stored(row: Row) {
    Store(row) == row
  }

  predicate AllStored(t: Table) {
    forall i :: 0 <= i < |t| ==> Stored(t[i])
  }

  /**
    `UPDATE EmployeeData SET <every column> = ? WHERE EmployeeID = ?`: each
    row carrying `id` takes all of `rec`'s values; every other row is left
    alone.
   */
  function UpdateWhere(t: Table, id: Value, rec: Row): (u: Table)
    ensures |u| == |t|
    ensures forall i :: 0 <= i < |t| && Matches(t[i], id) ==> u[i] == rec
    ensures forall i :: 0 <= i < |t| && !Matches(t[i], id) ==> u[i] == t[i]
  {
    if t == [] then []
    else [if Matches(t[0], id) then rec else t[0]] + UpdateWhere(t[1..], id, rec)
  }

  /**
    Saving a record: the id is compared under INTEGER affinity, so the text
    "101" finds a stored 101. When the id is present (not NULL) and some row
    carries it, all such rows are overwritten with the stored form of the
    record and the row count is unchanged; otherwise, including for a NULL
    id, the stored form of the record is inserted as one new row.
   */
  function Upsert(t: Table, rec: Row): (s: Saved)
    ensures s.outcome == Updated <==>
      IntegerAffinity(Key(rec)) != Null && HasId(t, IntegerAffinity(Key(rec)))
    ensures |s.table| == |t| + (if s.outcome == Inserted then 1 else 0)
    ensures s.outcome == Updated ==>
      forall i :: 0 <= i < |t| && Matches(t[i], IntegerAffinity(Key(rec))) ==> s.table[i] == Store(rec)
    ensures forall i :: 0 <= i < |t| && !Matches(t[i], IntegerAffinity(Key(rec))) ==> s.table[i] == t[i]
    ensures s.outcome == Inserted ==> s.table[..|t|] == t && s.table[|t|] == Store(rec)
  {
    var stored := Store(rec);
    var id := Key(stored);
    if id != Null && HasId(t, id) then
      Saved(UpdateWhere(t, id, stored), Updated)
    else
      Saved(t + [stored], Inserted)
  }

  /**
    Pressing Edit with a stored search result: every cell of the first hit
    is copied into the form, a NULL staying missing (clad_4_db.py:172-177).
   */
  function Edit(hits: Table): (e: EditOutcome)
    ensures e == NoData <==> hits == []
    ensures hits != [] ==> e == Filled(hits[0])
  {
    if hits == [] then NoData else Filled(hits[0])
  }

  /**
    The form as its text boxes hand it back on the next run: an integer the
    form holds is shown, and returned, as its decimal text.
   */
  function Redraw(form: Row): (r: Row)
    ensures forall c :: 0 <= c < Width ==> r[c] == TextAffinity(form[c])
  {
    seq(Width, (c: int) requires 0 <= c < Width => TextAffinity(form[c]))
  }

  /** The decimal text of an integer is stored, and compared, as that integer. */
  lemma AffinityReadsDecimal(n: int)
    ensures IntegerAffinity(Text(IntToString(n))) == Int(n)
  {
    ParseIntRoundTrip(n);
  }

  /** Storing is idempotent, so every row a save writes is in stored form. */
  lemma StoreIsStored(rec: Row)
    ensures Stored(Store(rec))
  {
  }

  /**
    Redrawing a stored row in the form and storing it again gives back the
    row: an integer id travels through the text box as its decimal text.
   */
  lemma StoreUndoesRedraw(row: Row)
    requires Stored(row)
    ensures Store(Redraw(row)) == row
  {
    var back := Store(Redraw(row));
    forall c | 0 <= c < Width ensures back[c] == row[c] {
      if c == IdColumn && row[c].Int? {
        AffinityReadsDecimal(row[c].n);
      } else {
        assert Store(row)[c] == row[c];
      }
    }
  }

  /** A save leaves every row of the table in stored form. */
  lemma UpsertKeepsStored(t: Table, rec: Row)
    requires AllStored(t)
    ensures AllStored(Upsert(t, rec).table)
  {
    StoreIsStored(rec);
  }

  /** A save never gives two rows the same id when there were none before. */
  lemma UpsertKeepsIdsUnique(t: Table, rec: Row)
    requires UniqueIds(t)
    ensures UniqueIds(Upsert(t, rec).table)
  {
  }

  /** A save keeps any single id carried by at most one row. */
  lemma UpsertKeepsIdUnique(t: Table, rec: Row, id: Value)
    requires UniqueId(t, id)
    ensures UniqueId(Upsert(t, rec).table, id)
  {
  }

  /** Every hit of a search after an update is the saved record. */
  lemma FilterAfterUpdate(t: Table, id: Value, rec: Row)
    requires Matches(rec, id)
    ensures forall h :: h in Filter(UpdateWhere(t, id, rec), id) ==> h == rec
  {
  }

  /**
    Saving a record whose id is the decimal text of `q`, as the form's text
    box sends it, over a table already holding `q` updates and keeps the
    row count.
   */
  lemma TextIdUpdates(t: Table, rec: Row, q: int)
    requires Key(rec) == Text(IntToString(q)) && HasId(t, Int(q))
    ensures Upsert(t, rec).outcome == Updated
    ensures |Upsert(t, rec).table| == |t|
  {
    AffinityReadsDecimal(q);
  }

  /**
    After saving a record whose id reads as a non-zero integer `q` (the
    integer itself, or any text SQLite reads as it, such as "101" or
    "+0101"), searching for `q` finds it, and every hit is the stored record
    (all rows with the id were overwritten); when at most one row carried the
    id before the save it is the only hit.
   */
  lemma UpsertThenSearch(t: Table, rec: Row, q: int)
    requires q != 0 && IntegerAffinity(Key(rec)) == Int(q)
    ensures Search(Upsert(t, rec).table, q).Found?
    ensures forall h :: h in Search(Upsert(t, rec).table, q).hits ==> h == Store(rec)
    ensures UniqueId(t, Int(q)) ==> Search(Upsert(t, rec).table, q).hits == [Store(rec)]
  {
    var s := Upsert(t, rec);
    var id := Int(q);
    var stored := Store(rec);
    assert Key(stored) == id;
    if s.outcome == Updated {
      FilterAfterUpdate(t, id, stored);
      if UniqueId(t, id) {
        UpsertKeepsIdUnique(t, rec, id);
        FilterUnique(s.table, id);
      }
    } else {
      assert Filter(t, id) == [];
      FilterAppend(t, [stored], id);
      FilterSingle(stored, id);
    }
  }

  /**
    An id typed as non-numeric text is stored as text, and no search by
    number ever finds the row it saved.
   */
  lemma NonNumericIdUnsearchable(t: Table, rec: Row, q: int)
    requires Key(rec).Text? && ParseInt(Key(rec).s).None?
    requires Search(Upsert(t, rec).table, q).Found?
    ensures Store(rec) !in Search(Upsert(t, rec).table, q).hits
  {
  }

  /**
    When one row carries the id, pressing Edit on a search hit and saving it straight
    back leaves the table exactly as it was, reporting an update; this holds
    both for the form as Edit fills it and for the form as its text boxes
    return it, with the id as text.
   */
  lemma EditThenSaveIsNoOp(t: Table, q: int)
    requires UniqueId(t, Int(q)) && AllStored(t) && Search(t, q).Found?
    ensures Upsert(t, Edit(Search(t, q).hits).form) == Saved(t, Updated)
    ensures Upsert(t, Redraw(Edit(Search(t, q).hits).form)) == Saved(t, Updated)
  {
    var id := Int(q);
    FilterUnique(t, id);
    var i := FirstIndex(t, id);
    var row := t[i];
    assert Stored(row);
    StoreUndoesRedraw(row);
    assert IntegerAffinity(Key(row)) == id;
    assert IntegerAffinity(Key(Redraw(row))) == id by {
      assert Key(Store(Redraw(row))) == Key(row);
    }
    var u := Upsert(t, row).table;
    var w := Upsert(t, Redraw(row)).table;
    forall j | 0 <= j < |t| ensures u[j] == t[j] && w[j] == t[j] {
      if Matches(t[j], id) {
        assert j == i;
      }
    }
  }
}

=== FILE: numerals.dfy ===
/**
  Decimal numerals: the conversions the application relies on when it turns a
  cell into text (Python's `str` on an integer) and text back into a number
  (Python's `int` on a string, and the string case of pandas' `to_numeric`).
  Only the syntax both of those accept is modelled: an optional sign followed
  by one or more decimal digits.
 */
module Numerals {

  datatype Option<+T> = None | Some(value: T)

  predicate IsDigit(c: char) {
    '0' <= c <= '9'
  }

  predicate AllDigits(s: string) {
    forall i :: 0 <= i < |s| ==> IsDigit(s[i])
  }

  function DigitChar(d: nat): (c: char)
    requires d < 10
    ensures IsDigit(c)
  {
    ('0' as int + d) as char
  }

  function DigitValue(c: char): (d: nat)
    requires IsDigit(c)
    ensures d < 10
  {
    c as int - '0' as int
  }

  /** The value of a non-empty run of decimal digits, most significant first. */
  function DigitsValue(s: string): nat
    requires AllDigits(s)
  {
    if s == [] then 0 else 10 * DigitsValue(s[..|s| - 1]) + DigitValue(s[|s| - 1])
  }

  /** Python's `str(n)` for a non-negative integer: no sign, no leading zeros. */
  function NatToString(n: nat): (s: string)
    ensures |s| > 0 && AllDigits(s)
    ensures s[0] == '0' ==> n == 0
  {
    if n < 10 then [DigitChar(n)] else NatToString(n / 10) + [DigitChar(n % 10)]
  }

  /** Python's `str(i)` for any integer. */
  function IntToString(i: int): (s: string)
    ensures |s| > 0
    ensures i < 0 <==> s[0] == '-'
    ensures i >= 0 ==> AllDigits(s)
    ensures i < 0 ==> |s| > 1 && AllDigits(s[1..])
    ensures s[0] == '0' ==> i == 0
    ensures i < 0 ==> s[1] != '0'
  {
    if i < 0 then "-" + NatToString(-i) else NatToString(i)
  }

  /**
    Python's `int(s)` (and the string case of `to_numeric`), restricted to an
    optional `+` or `-` followed by decimal digits; anything else is rejected
    with `None`, which is where Python raises `ValueError` and pandas coerces
    to NaN.
   */
  function ParseInt(s: string): (r: Option<int>)
    ensures r.Some? <==>
      (s != [] && (AllDigits(s) || ((s[0] == '-' || s[0] == '+') && |s| > 1 && AllDigits(s[1..]))))
    ensures s == [] ==> r == None
    ensures AllDigits(s) && s != [] ==> r == Some(DigitsValue(s))
    ensures r.Some? && r.value < 0 ==> s[0] == '-'
    ensures r.Some? && s[0] == '+' ==> r.value == DigitsValue(s[1..])
    ensures r.Some? && s[0] == '-' ==> r.value == -(DigitsValue(s[1..]) as int)
  {
    if s == [] then None
    else if s[0] == '-' || s[0] == '+' then
      var body := s[1..];
      if body != [] && AllDigits(body) then
        var magnitude: int := DigitsValue(body);
        Some(if s[0] == '-' then -magnitude else magnitude)
      else None
    else if AllDigits(s) then Some(DigitsValue(s))
    else None
  }

  /** Reading back the digits `NatToString` writes gives the number again. */
  lemma {:induction false} NatToStringValue(n: nat)
    ensures DigitsValue(NatToString(n)) == n
  {
    var s := NatToString(n);
    if n < 10 {
      assert s[..|s| - 1] == [];
    } else {
      NatToStringValue(n / 10);
      assert s[..|s| - 1] == NatToString(n / 10);
      assert DigitValue(s[|s| - 1]) == n % 10;
    }
  }

  /** `int(str(i)) == i`: parsing undoes printing, for every integer. */
  lemma ParseIntRoundTrip(i: int)
    ensures ParseInt(IntToString(i)) == Some(i)
  {
    if i < 0 {
      var s := IntToString(i);
      assert s[1..] == NatToString(-i);
      NatToStringValue(-i);
    } else {
      NatToStringValue(i);
    }
  }
}

=== FILE: records.dfy ===
/**
  The employee table both variants keep: an ordered sequence of nineteen-cell
  rows keyed by the employee id, and the lookup rule both variants share.
 */
module Records {
  import opened Schema

  /** A cell: missing (pandas NaN/None, SQL NULL), an integer, or a string. */
  datatype Value = Null | Int(n: int) | Text(s: string)

  /** One employee: a cell per column, in the column order of `Schema`. */
  type Row = r: seq<Value> | |r| == Width witness seq(Width, _ => Null)

  type Table = seq<Row>

  function Key(row: Row): Value {
    row[IdColumn]
  }

  /**
    Does `row` carry the key `id`? A missing key never matches anything:
    neither `None in column.values` in pandas nor `EmployeeID = NULL` in SQL
    is ever true.
   */
  predicate Matches(row: Row, id: Value) {
    id != Null && Key(row) == id
  }

  predicate HasId(t: Table, id: Value) {
    exists i :: 0 <= i < |t| && Matches(t[i], id)
  }

  /** At most one row per non-missing employee id. */
  predicate UniqueIds(t: Table) {
    forall i, j :: 0 <= i < |t| && 0 <= j < |t| && i != j && Key(t[i]) != Null ==> Key(t[i]) != Key(t[j])
  }

  /**
    At most one row carries `id`. Unlike `UniqueIds` this says nothing about
    other ids, so it survives rows that share some other id (such as 0).
   */
  predicate UniqueId(t: Table, id: Value) {
    forall i, j :: 0 <= i < |t| && 0 <= j < |t| && Matches(t[i], id) && Matches(t[j], id) ==> i == j
  }

  /** Position of the first row carrying `id`. */
  function FirstIndex(t: Table, id: Value): (i: nat)
    requires HasId(t, id)
    ensures i < |t| && Matches(t[i], id)
    ensures forall j :: 0 <= j < i ==> !Matches(t[j], id)
  {
    if Matches(t[0], id) then 0
    else
      assert HasId(t[1..], id) by {
        var j :| 0 <= j < |t| && Matches(t[j], id);
        assert t[1..][j - 1] == t[j];
      }
      1 + FirstIndex(t[1..], id)
  }

  /** The rows carrying `id`, in table order (a boolean-mask selection). */
  function Filter(t: Table, id: Value): (hits: Table)
    ensures |hits| <= |t|
    ensures forall h :: h in hits ==> h in t && Matches(h, id)
    ensures forall i :: 0 <= i < |t| && Matches(t[i], id) ==> t[i] in hits
    ensures hits == [] <==> !HasId(t, id)
  {
    if t == [] then []
    else (if Matches(t[0], id) then [t[0]] else []) + Filter(t[1..], id)
  }

  /** What pressing Search yields. */
  datatype SearchOutcome = Rejected | NotFound | Found(hits: Table)

  /**
    Search by employee id: the id 0 (the widget's default) is refused before
    the table is consulted; otherwise the matching rows, if any.
   */
  function Search(t: Table, q: int): (r: SearchOutcome)
    ensures r == Rejected <==> q == 0
    ensures r == NotFound <==> q != 0 && !HasId(t, Int(q))
    ensures r.Found? ==> r.hits != [] && r.hits == Filter(t, Int(q))
  {
    if q == 0 then Rejected
    else
      var hits := Filter(t, Int(q));
      if hits == [] then NotFound else Found(hits)
  }

  /** Which confirmation a save reports. */
  datatype SaveOutcome = Updated | Inserted

  datatype Saved = Saved(table: Table, outcome: SaveOutcome)

  /** What pressing Edit puts into the form. */
  datatype EditOutcome =
    | NoData          // the stored search result is empty
    | Aborted         // a cell could not be converted; the run stops
    | Filled(form: Row)

  /** Selection distributes over concatenation, so it keeps table order. */
  lemma {:induction false} FilterAppend(a: Table, b: Table, id: Value)
    ensures Filter(a + b, id) == Filter(a, id) + Filter(b, id)
  {
    if a == [] {
      assert a + b == b;
    } else {
      assert (a + b)[1..] == a[1..] + b;
      FilterAppend(a[1..], b, id);
    }
  }

  /**
    The selection starts with the first matching row: whatever precedes it
    contributes nothing.
   */
  lemma FilterFromFirst(prefix: Table, row: Row, suffix: Table, id: Value)
    requires !HasId(prefix, id) && Matches(row, id)
    ensures Filter(prefix + [row] + suffix, id) == [row] + Filter(suffix, id)
  {
    FilterSingle(row, id);
    FilterAppend(prefix, [row], id);
    FilterAppend(prefix + [row], suffix, id);
  }

  /** Splitting a table around its first row carrying `id`. */
  lemma SplitAtFirst(t: Table, id: Value)
    requires HasId(t, id)
    ensures var i := FirstIndex(t, id);
      t == t[..i] + [t[i]] + t[i + 1..] && !HasId(t[..i], id)
  {
  }

  /** When one row carries the id, a search hits exactly that row. */
  lemma FilterUnique(t: Table, id: Value)
    requires UniqueId(t, id) && HasId(t, id)
    ensures Filter(t, id) == [t[FirstIndex(t, id)]]
  {
  }

  lemma FilterSingle(row: Row, id: Value)
    requires Matches(row, id)
    ensures Filter([row], id) == [row]
  {
  }
}

=== FILE: schema.dfy ===
/**
  The employee record layout shared by both variants: nine identity columns
  followed by ten skill columns, in a fixed order. Both variants declare the
  same nineteen columns under different spellings (the spreadsheet uses
  "Employee ID", the database "EmployeeID"); the employee id is the only
  numeric column in either.
 */
module Schema {
  import opened Numerals

  /** The column type: `number`/`INTEGER` versus `text`/`TEXT`. */
  datatype Kind = Numeric | Textual

  const IdentityCount: nat := 9
  const SkillCount: nat := 10
  const Width: nat := IdentityCount + SkillCount

  /** Position of the employee id, the key of every lookup and save. */
  const IdColumn: nat := 0

  const DepartmentColumn: nat := 7

  function KindOf(c: nat): Kind {
    if c == IdColumn then Numeric else Textual
  }

  /** The SQL column type each column is created with. */
  function SqlType(c: nat): string {
    match KindOf(c)
    case Numeric => "INTEGER"
    case Textual => "TEXT"
  }

  const SheetIdentity: seq<string> := [
    "Employee ID", "Global Career Band", "BF Level 1", "BF Level 2", "BF Level 3",
    "BF Level 4", "BF Level 5", "Department Name", "Work Location"
  ]

  const SqlIdentity: seq<string> := [
    "EmployeeID", "GlobalCareerBand", "BFLevel1", "BFLevel2", "BFLevel3",
    "BFLevel4", "BFLevel5", "DepartmentName", "WorkLocation"
  ]

  /** Column header of the spreadsheet: skills numbered from 1 with a space. */
  function SheetColumn(c: nat): string
    requires c < Width
  {
    if c < IdentityCount then SheetIdentity[c] else "Skill " + NatToString(c - IdentityCount + 1)
  }

  /** Column name of the database table: skills numbered from 1 without a space. */
  function SqlColumn(c: nat): string
    requires c < Width
  {
    if c < IdentityCount then SqlIdentity[c] else "Skill" + NatToString(c - IdentityCount + 1)
  }

  /**
    Both layouts have nineteen columns in the same order: the id first, the
    skills last and numbered 1 to 10; the id column is the only one created
    as INTEGER.
   */
  lemma ColumnLayout()
    ensures Width == 19 && IdColumn < Width
    ensures SheetColumn(IdColumn) == "Employee ID" && SqlColumn(IdColumn) == "EmployeeID"
    ensures SheetColumn(DepartmentColumn) == "Department Name" && SqlColumn(DepartmentColumn) == "DepartmentName"
    ensures forall c :: IdentityCount <= c < Width ==> SheetColumn(c) == "Skill " + NatToString(c - IdentityCount + 1)
    ensures forall c :: IdentityCount <= c < Width ==> SqlColumn(c) == "Skill" + NatToString(c - IdentityCount + 1)
    ensures SheetColumn(Width - 1) == "Skill 10" && SqlColumn(Width - 1) == "Skill10"
    ensures forall c :: 0 <= c < Width ==> (SqlType(c) == "INTEGER" <==> c == IdColumn)
  {
  }
}

=== FILE: spreadsheet.dfy ===
/**
  The spreadsheet-backed variant: the table is read from a worksheet (adding
  missing columns and forcing the id column to integers), a save coerces the
  form's number fields with Python truthiness and replaces the FIRST row with
  the same id or appends, and Edit turns the first hit of a search into form
  values (missing numbers become 0, missing text the empty string).
 */
module Spreadsheet {
  import opened Numerals
  import opened Schema
  import opened Records

  /**
    One worksheet row as read: header to cell. A header the file lacks, and a
    cell left empty, both have no entry.
   */
  type SheetRow = map<string, Value>

  /** The worksheet on disk: absent, present but unreadable, or its rows. */
  datatype SheetFile = Missing | Unreadable | Present(rows: seq<SheetRow>)

  /** A column the file lacks is added filled with missing values. */
  function Cell(raw: SheetRow, name: string): Value {
    if name in raw then raw[name] else Null
  }

  /** The cells `to_numeric(errors='coerce')` turns into NaN. */
  predicate NotNumeric(v: Value) {
    v.Null? || (v.Text? && ParseInt(v.s).None?)
  }

  /** Load-time coercion: a number column becomes integers, NaN becoming 0. */
  function LoadCell(k: Kind, v: Value): Value {
    match k
    case Textual => v
    case Numeric =>
      match v
      case Int(_) => v
      case Text(s) => (match ParseInt(s) case Some(n) => Int(n) case None => Int(0))
      case Null => Int(0)
  }

  function LoadRow(raw: SheetRow): Row {
    seq(Width, (c: int) requires 0 <= c < Width => LoadCell(KindOf(c), Cell(raw, SheetColumn(c))))
  }

  /** The id cell of a worksheet row before coercion. */
  function RawId(raw: SheetRow): Value {
    Cell(raw, SheetColumn(IdColumn))
  }

  /**
    Reading the worksheet. A missing or unreadable file gives an empty table
    (which still has every declared column, by the shape of `Row`). Otherwise
    one row per worksheet row: text columns as read, missing ones empty, and
    the id always an integer: the number read, or 0 for a missing or
    non-numeric cell.
   */
  function Load(f: SheetFile): (t: Table)
    ensures !f.Present? ==> t == []
    ensures f.Present? ==> |t| == |f.rows|
    ensures forall i :: 0 <= i < |t| ==> Key(t[i]).Int?
    ensures f.Present? ==> forall i, c :: 0 <= i < |t| && 0 <= c < Width && c != IdColumn ==>
      t[i][c] == Cell(f.rows[i], SheetColumn(c))
    ensures f.Present? ==> forall i :: 0 <= i < |t| ==>
      (RawId(f.rows[i]).Int? ==> Key(t[i]) == RawId(f.rows[i])) &&
      (NotNumeric(RawId(f.rows[i])) ==> Key(t[i]) == Int(0)) &&
      (RawId(f.rows[i]).Text? && ParseInt(RawId(f.rows[i]).s).Some? ==>
        Key(t[i]) == Int(ParseInt(RawId(f.rows[i]).s).value))
  {
    match f
    case Present(rows) => seq(|rows|, (i: int) requires 0 <= i < |rows| => LoadRow(rows[i]))
    case _ => []
  }

  /** Python truthiness of a cell: None, 0 and "" are false. */
  predicate Falsy(v: Value) {
    v == Null || v == Int(0) || v == Text("")
  }

  /**
    Save-time coercion of one form value: `int(x) if x else None` for the
    number column, text passed through. `None` is `int` raising ValueError.
   */
  function SaveCell(k: Kind, v: Value): Option<Value> {
    match k
    case Textual => Some(v)
    case Numeric =>
      if Falsy(v) then Some(Null)
      else match v
        case Text(s) => (match ParseInt(s) case Some(n) => Some(Int(n)) case None => None)
        case _ => Some(v)
  }

  /** The id of a stored row is missing or an integer, never text. */
  predicate KeyTyped(row: Row) {
    Key(row).Null? || Key(row).Int?
  }

  predicate AllKeysTyped(t: Table) {
    forall i :: 0 <= i < |t| ==> KeyTyped(t[i])
  }

  /**
    The record a Save builds from the form. It fails only when the id is a
    non-empty string that is not an integer; otherwise a falsy id is stored as
    missing, any other id as its integer, and every text field unchanged.
   */
  function Coerce(form: Row): (r: Option<Row>)
    ensures r.None? <==> Key(form).Text? && Key(form).s != "" && ParseInt(Key(form).s).None?
    ensures r.Some? ==> KeyTyped(r.value)
    ensures r.Some? ==> (Key(r.value) == Null <==> Falsy(Key(form)))
    ensures r.Some? && Key(form).Int? && Key(form).n != 0 ==> Key(r.value) == Key(form)
    ensures r.Some? && Key(form).Text? && Key(form).s != "" ==>
      Key(r.value).Int? && ParseInt(Key(form).s) == Some(Key(r.value).n)
    ensures r.Some? ==> forall c :: 0 <= c < Width && c != IdColumn ==> r.value[c] == form[c]
  {
    if forall c :: 0 <= c < Width ==> SaveCell(KindOf(c), form[c]).Some? then
      Some(seq(Width, (c: int) requires 0 <= c < Width => SaveCell(KindOf(c), form[c]).value))
    else
      assert !SaveCell(KindOf(IdColumn), form[IdColumn]).Some?;
      None
  }

  /**
    Upsert by first match: when the table is non-empty and holds the record's
    id, the first such row is replaced and nothing else changes; otherwise the
    record is appended after the existing rows.
   */
  function Upsert(t: Table, rec: Row): (s: Saved)
    ensures s.outcome == Updated <==> HasId(t, Key(rec))
    ensures |s.table| == |t| + (if s.outcome == Inserted then 1 else 0)
    ensures s.outcome == Updated ==> s.table[FirstIndex(t, Key(rec))] == rec
    ensures s.outcome == Updated ==>
      forall j :: 0 <= j < |t| && j != FirstIndex(t, Key(rec)) ==> s.table[j] == t[j]
    ensures s.outcome == Inserted ==> s.table[..|t|] == t && s.table[|t|] == rec
  {
    if |t| > 0 && HasId(t, Key(rec)) then
      Saved(t[FirstIndex(t, Key(rec)) := rec], Updated)
    else
      Saved(t + [rec], Inserted)
  }

  /** Pressing Save: coerce the form, then upsert; a failed coercion changes nothing. */
  function Save(t: Table, form: Row): (r: Option<Saved>)
    ensures r.None? <==> Coerce(form).None?
    ensures r.Some? ==> (r.value.outcome == Updated <==> HasId(t, Key(Coerce(form).value)))
  {
    match Coerce(form)
    case Some(rec) => Some(Upsert(t, rec))
    case None => None
  }

  /**
    Edit-time conversion of one cell: a present number becomes `int`, present
    text `str`; a missing cell becomes 0 or "". `None` is `int` raising.
   */
  function FillCell(k: Kind, v: Value): Option<Value> {
    match v
    case Null => Some(if k == Numeric then Int(0) else Text(""))
    case Int(n) => Some(if k == Numeric then v else Text(IntToString(n)))
    case Text(s) =>
      if k == Textual then Some(v)
      else match ParseInt(s) case Some(n) => Some(Int(n)) case None => None
  }

  /** What the form widgets hold: an integer id and a string in every other field. */
  predicate FormShaped(form: Row) {
    Key(form).Int? && forall c :: 0 <= c < Width && c != IdColumn ==> form[c].Text?
  }

  /**
    The form values Edit derives from a stored row. Every text field comes out
    as a string, the id as an integer; present strings are kept as they are
    and missing cells become 0 or "", an integer in a text column becomes its
    decimal text, and an id held as numeric text becomes that integer.
    Conversion fails exactly on an id held as non-numeric text, which a loaded
    or saved table never has.
   */
  function FillForm(row: Row): (r: Option<Row>)
    ensures r.None? <==> Key(row).Text? && ParseInt(Key(row).s).None?
    ensures KeyTyped(row) ==> r.Some?
    ensures r.Some? ==> FormShaped(r.value)
    ensures r.Some? && Key(row).Int? ==> Key(r.value) == Key(row)
    ensures r.Some? && Key(row).Null? ==> Key(r.value) == Int(0)
    ensures r.Some? && Key(row).Text? ==> ParseInt(Key(row).s) == Some(Key(r.value).n)
    ensures r.Some? ==> forall c :: 0 <= c < Width && c != IdColumn ==>
      (row[c].Text? ==> r.value[c] == row[c]) && (row[c].Null? ==> r.value[c] == Text(""))
    ensures r.Some? ==> forall c :: 0 <= c < Width && c != IdColumn && row[c].Int? ==>
      r.value[c] == Text(IntToString(row[c].n))
  {
    if forall c :: 0 <= c < Width ==> FillCell(KindOf(c), row[c]).Some? then
      Some(seq(Width, (c: int) requires 0 <= c < Width => FillCell(KindOf(c), row[c]).value))
    else
      None
  }

  /** Pressing Edit with a stored search result: fill the form from its first row. */
  function Edit(hits: Table): (e: EditOutcome)
    ensures e == NoData <==> hits == []
    ensures e == Aborted <==> hits != [] && FillForm(hits[0]).None?
    ensures e.Filled? ==> Some(e.form) == FillForm(hits[0])
  {
    if hits == [] then NoData
    else match FillForm(hits[0])
      case Some(form) => Filled(form)
      case None => Aborted
  }

  /** A save never gives two rows the same id when there were none before. */
  lemma UpsertKeepsIdsUnique(t: Table, rec: Row)
    requires UniqueIds(t)
    ensures UniqueIds(Upsert(t, rec).table)
  {
  }

  /**
    A save keeps any single id carried by at most one row, whatever the
    other ids do: the first-match replacement never adds a second copy.
   */
  lemma UpsertKeepsIdUnique(t: Table, rec: Row, id: Value)
    requires UniqueId(t, id)
    ensures UniqueId(Upsert(t, rec).table, id)
  {
  }

  /**
    The save stores a falsy id as missing, and reloading the file reads every
    missing id as 0: two such rows come back sharing the id 0, so reloading
    can break `UniqueIds` even though no save does.
   */
  lemma ReloadBlankIdsCollide(a: SheetRow, b: SheetRow)
    requires SheetColumn(IdColumn) !in a && SheetColumn(IdColumn) !in b
    ensures Key(Load(Present([a, b]))[0]) == Int(0) && Key(Load(Present([a, b]))[1]) == Int(0)
    ensures !UniqueIds(Load(Present([a, b])))
  {
  }

  /**
    After saving a record with a non-zero id, searching for that id finds it:
    it is the first hit (so Edit would load it), and when at most one row
    carried the id before the save it is the only hit.
   */
  lemma UpsertThenSearch(t: Table, rec: Row, q: int)
    requires q != 0 && Key(rec) == Int(q)
    ensures Search(Upsert(t, rec).table, q).Found?
    ensures Search(Upsert(t, rec).table, q).hits[0] == rec
    ensures UniqueId(t, Int(q)) ==> Search(Upsert(t, rec).table, q).hits == [rec]
  {
    var u := Upsert(t, rec).table;
    var id := Int(q);
    if HasId(t, id) {
      var i := FirstIndex(t, id);
      SplitAtFirst(t, id);
      var prefix, suffix := t[..i], t[i + 1..];
      assert u == prefix + [rec] + suffix;
      FilterFromFirst(prefix, rec, suffix, id);
      if UniqueId(t, id) {
        FilterUnique(t, id);
        FilterFromFirst(prefix, t[i], suffix, id);
        assert Filter(suffix, id) == [];
      }
    } else {
      assert u == t + [rec];
      assert Filter(t, id) == [];
      FilterAppend(t, [rec], id);
      FilterSingle(rec, id);
    }
  }

  /** Python truthiness of the id aside, the rows a save writes and Edit reads back unchanged. */
  predicate Canonical(row: Row) {
    && (Key(row).Null? || (Key(row).Int? && Key(row).n != 0))
    && forall c :: 0 <= c < Width && c != IdColumn ==> row[c].Text?
  }

  /**
    Saving a form and pressing Edit on the stored record gives back the same
    form: the id 0 goes out as missing and comes back as 0, and text is kept.
   */
  lemma CoerceThenFill(form: Row)
    requires FormShaped(form)
    ensures Coerce(form).Some?
    ensures FillForm(Coerce(form).value) == Some(form)
  {
    var rec := Coerce(form).value;
    var back := FillForm(rec).value;
    forall c | 0 <= c < Width ensures back[c] == form[c] {
      if c != IdColumn {
        assert rec[c] == form[c];
      }
    }
    assert back == form;
  }

  /**
    Conversely, filling the form from a canonical stored row and saving it
    again reproduces that row exactly.
   */
  lemma FillThenCoerce(row: Row)
    requires Canonical(row)
    ensures FillForm(row).Some?
    ensures Coerce(FillForm(row).value) == Some(row)
  {
    var form := FillForm(row).value;
    var rec := Coerce(form).value;
    forall c | 0 <= c < Width ensures rec[c] == row[c] {
      if c != IdColumn {
        assert form[c] == row[c];
      }
    }
    assert rec == row;
  }

  /**
    The whole editing cycle: save a form with a non-zero id, search for that
    id, press Edit, and the form comes back as it was saved.
   */
  lemma SaveSearchEdit(t: Table, form: Row, q: int)
    requires FormShaped(form) && Key(form) == Int(q) && q != 0
    ensures Save(t, form).Some?
    ensures Search(Save(t, form).value.table, q).Found?
    ensures Edit(Search(Save(t, form).value.table, q).hits) == Filled(form)
  {
    CoerceThenFill(form);
    UpsertThenSearch(t, Coerce(form).value, q);
  }

  /**
    Editing a search hit and saving it straight back updates in place: the
    id survives the round trip through the form, so the save never inserts.
   */
  lemma EditThenSaveUpdates(t: Table, q: int)
    requires Search(t, q).Found?
    ensures Edit(Search(t, q).hits).Filled?
    ensures Save(t, Edit(Search(t, q).hits).form).Some?
    ensures Save(t, Edit(Search(t, q).hits).form).value.outcome == Updated
    ensures |Save(t, Edit(Search(t, q).hits).form).value.table| == |t|
  {
    var hits := Search(t, q).hits;
    assert hits[0] in hits;
    assert Key(hits[0]) == Int(q);
  }

  /** A sequence of Save presses; a save whose coercion fails changes nothing. */
  function SaveAll(t: Table, forms: seq<Row>): Table
    decreases |forms|
  {
    if forms == [] then t
    else
      var next := match Save(t, forms[0]) case Some(s) => s.table case None => t;
      SaveAll(next, forms[1..])
  }

  /**
    Every id stays an integer or missing through any sequence of saves; a
    loaded table starts out that way (see `Load`), so a stored id is never
    text and `FillForm` never fails on a stored row.
   */
  lemma {:induction false} SaveAllKeepsKeysTyped(t: Table, forms: seq<Row>)
    requires AllKeysTyped(t)
    ensures AllKeysTyped(SaveAll(t, forms))
    decreases |forms|
  {
    if forms != [] {
      var next := match Save(t, forms[0]) case Some(s) => s.table case None => t;
      assert AllKeysTyped(next);
      SaveAllKeepsKeysTyped(next, forms[1..]);
    }
  }
}
